=== FILE: README.md ===
# simple_llm_chat — conversation controller and backend client, modelled in Dafny

The chat client keeps a conversation with a local Ollama server. This model covers
its two pieces of sequential logic as pure functions over sequences:

- the **conversation controller** of `ChatInterface` (`chat_interface.py`): sending
  a message, building the request history, reading the max-tokens box, folding a
  streamed reply into one assistant message while the transcript is drawn token
  by token, and saving, loading and clearing a session;
- the **backend client** (`ollama.py`): the system-prompt rule and the request
  body of `chat_completion`, the filter that turns body lines into chunks, and
  the fallback of `get_available_models`.

The widgets become the text they hold. `Session.Session` is the record
`{conversation, systemPrompt, transcript, input, inputLocked}`. `input` is the
input box: sending clears it, and a disabled box is always empty
(`Session.LockedInputEmpty`). A streamed reply is a `seq<Ollama.Chunk>`. Each chunk
has an optional `message`, whose `content` may itself be missing, and a `done` flag.
The display callbacks that `stream_ai_response` schedules on the UI thread are a
`seq<Stream.UiEvent>`, applied in order.

Modules: `Wrappers` (Option, Result), `Text` (Python's `str.strip`, concatenation),
`Numbers` (Python's `int()` on a base-10 string), `Messages` (messages and their
transcript text), `Ollama`, `Stream` (the chunk loop) and `Session` (the controller).

The model follows the code in these details:
- The content of the `done` chunk is still added to the reply before reading stops.
- A `message` without `content` contributes "" but still triggers the `AI:` label.
- Tk's `Text.get("1.0", END)` appends a newline to the box contents. The model reads
  the boxes that way (`Session.BoxText`) and proves that `strip()` removes it.
- `int()` skips less whitespace than `strip()` removes: the separators U+001C to
  U+001F count for `str.isspace()` but not for CPython's `int()`. It also refuses
  numerals of more than 4300 digits.

## Model

| member | source | states |
|---|---|---|
| Text.Strip | chat_interface.py:79 | `strip()` leaves no whitespace at either end, and it yields "" exactly when the text is all whitespace |
| Text.StripSplits | chat_interface.py:79 | the stripped text is an infix of the input, with only whitespace on each side of it |
| Text.StripIgnoresOuterSpace | chat_interface.py:166 | whitespace added around a text, such as the newline a Tk box appends, never changes what `strip()` returns |
| Text.StripIdempotent | chat_interface.py:174 | stripping the saved (already stripped) prompt again changes nothing |
| Numbers.ParseInt | chat_interface.py:102 | `int()` fails on blank text and on a numeral of more than 4300 digits, and a negative result needs a leading `-` |
| Numbers.ParseShowRoundTrip | chat_interface.py:102 | with whitespace `int()` skips (or none) around it, a decimal numeral is read back as its value exactly when it has at most 4300 digits, and refused otherwise |
| Numbers.ForeignRefused | chat_interface.py:102 | a character that is neither whitespace `int()` skips, nor sign, digit or underscore makes `int()` fail wherever it stands |
| Numbers.SeparatorRefused | chat_interface.py:102 | the separators U+001C to U+001F, which `strip()` removes, make `int()` fail wherever they stand, at either end included |
| Messages.RenderAppend | chat_interface.py:195-199 | drawing a conversation message by message equals drawing its parts one after another |
| Ollama.PrependSystem | ollama.py:7-9 | the messages are kept as a suffix; one system message carrying the prompt is added exactly when the prompt is non-empty and the list does not already open with a system message; with a non-empty prompt the result always opens with a system message |
| Ollama.PrependSystemIdempotent | ollama.py:8 | applying the rule to its own result adds nothing: the system message is never duplicated |
| Ollama.PrependSystemAsWritten | ollama.py:7-9 | as written, an empty prompt passes the messages through and any non-empty prompt raises |
| Ollama.LengthAttributeRaises | ollama.py:8 | for an empty list and prompt "Be brief", the intended rule adds one system message but the code as written raises |
| Ollama.AsWrittenAgreesWithoutPrompt | chat_interface.py:113 | on the client's own call, which passes no prompt, the written and intended rules agree |
| Ollama.ChatPayload | ollama.py:7-23 | the request always streams, carries the model, temperature and `num_predict = max_tokens`, and its messages are the system-prompt rule's result: one system message with the prompt and then the given messages when the prompt is non-empty and the list does not open with a system message, the given messages unchanged otherwise |
| Ollama.NonEmptyLines | ollama.py:27-29 | exactly the non-empty lines are kept, each as often as it occurs, and none is empty |
| Ollama.NonEmptyLinesAppend | ollama.py:27-29 | the filter works line by line in order: the kept lines of two consecutive pieces of the body are those of the first, then those of the second |
| Ollama.NonEmptyLinesKeepsAll | ollama.py:27-29 | a body without empty lines yields every line, unchanged |
| Ollama.ChatChunks | ollama.py:27-29 | one parsed chunk per non-empty line, in order |
| Ollama.AvailableModels | ollama.py:34-38 | a non-200 status gives exactly `["Error fetching models"]`; status 200 gives each entry's name in the original order and count |
| Stream.Consumed | chat_interface.py:113-121 | the chunks read are a prefix of the stream, hold no `done` before their last, and are either the whole stream or end with a `done` chunk |
| Stream.ConsumedStopsAt | chat_interface.py:120-121 | reading stops right after the first `done` chunk |
| Stream.ConsumedAll | chat_interface.py:113 | without a `done` chunk the whole stream is read |
| Stream.Deltas | chat_interface.py:114-115 | there are no more deltas than chunks, and none exactly when no chunk carries a message |
| Stream.DeltasStep | chat_interface.py:114-115 | each chunk read adds one delta when it carries a message, its `content` or "" when that is missing, and none otherwise |
| Stream.DeltasAppend | chat_interface.py:113-116 | deltas are collected chunk by chunk, in arrival order |
| Stream.StreamAiResponse | chat_interface.py:110-127 | the loop's reply is the in-order concatenation of the deltas up to the first `done` chunk; it schedules one update per delta, only the first flagged as first, then one finalisation |
| Session.AddMessage | chat_interface.py:148-157 | the message is appended to the conversation and its label, content and blank line to the transcript, whatever the transcript held; a transcript that showed the conversation still shows it |
| Session.Send | chat_interface.py:78-88 | blank input changes nothing; otherwise exactly one user message with the stripped text is appended, its text is drawn, and the box is cleared and disabled; the send keeps the transcript matching the conversation and an empty disabled box |
| Session.SendWhileLocked | chat_interface.py:82-83 | while a reply streams, with the box disabled and empty, a send is a no-op |
| Session.History | chat_interface.py:165-169 | with a blank prompt the history is the conversation; otherwise it is one system message with the stripped prompt, then the conversation; the stored conversation is always its suffix |
| Session.HistoryVersusBackendRule | chat_interface.py:165-169 | the history equals the backend's prepend rule exactly when the prompt is blank or the conversation does not already open with a system message |
| Session.EffectiveMaxTokens | chat_interface.py:101-105 | max tokens is at least 1; it is 4000 when `int()` fails and `max(1, n)` when it reads `n` |
| Session.MaxTokensOfNumeral | chat_interface.py:101-105 | a numeral in the box, with whitespace `int()` skips around it or not, gives its value floored at 1, and 4000 when it has more than 4300 digits |
| Session.MaxTokensWithSeparator | chat_interface.py:101-105 | text holding a separator U+001C to U+001F anywhere, such as `"\x1c5"`, gives 4000 |
| Session.MaxTokensOfNonNumeral | chat_interface.py:104-105 | blank text, or text whose stripped form does not end in a digit (such as "abc"), gives 4000 |
| Session.ClampTemperature | chat_interface.py:95-99 | the temperature lies in [0, 1]; it is 0.0 when parsing fails, unchanged inside the range, and clamped to the nearer bound outside it |
| Session.Request | chat_interface.py:90-108 | the request streams, carries exactly the history, sends as `num_predict` the max tokens read from the box (at least 1, 4000 when `int()` fails) and as temperature the clamped value (in [0, 1], 0.0 when `float()` fails) |
| Session.ApplyUpdates | chat_interface.py:129-135 | the updates write the `AI:` label once, before the first delta, then every delta in order; without deltas they write nothing, and nothing else changes |
| Session.AfterStream | chat_interface.py:110-142 | after a stream exactly one assistant message holding the accumulated text is appended, even an empty one; the label appears iff a message-bearing chunk was read; the blank line is always written and input is re-enabled |
| Session.RunStream | chat_interface.py:110-127 | the chunk loop, the append and the scheduled callbacks run in order reach exactly that state |
| Session.StreamedMatchesTyped | chat_interface.py:129-155 | a streamed reply is drawn exactly as `add_message` or a reload draws it iff at least one message-bearing chunk was read |
| Session.Exchange | chat_interface.py:78-127 | a blank send changes nothing; otherwise the conversation gains exactly the user message and then the assistant reply, and input ends enabled |
| Session.ExchangeKeepsTranscript | chat_interface.py:124-155 | the transcript keeps matching the conversation across an exchange iff the reply carried a message-bearing chunk |
| Session.TwoPartReplyText | chat_interface.py:113-121 | a reply whose second chunk is `done` accumulates the two deltas, and later chunks are ignored |
| Session.GreetingExchange | chat_interface.py:78-142 | sending a trimmed text and receiving a two-part reply draws `You:\n<text>\n\nAI:\n<reply>\n\n` and stores the two messages |
| Session.Save | chat_interface.py:174-178 | the saved document holds the stripped prompt and the stored conversation |
| Session.Load | chat_interface.py:187-199 | loading replaces the conversation and prompt wholesale, with missing keys read as empty; the redrawn transcript shows the loaded conversation, and the input box is untouched |
| Session.Redraw | chat_interface.py:195-199 | the redraw loop writes each message's label and content in turn, which is the whole conversation's transcript |
| Session.SaveLoadRoundTrip | chat_interface.py:174-199 | save then load gives back the conversation and the request history, and a transcript that matched the conversation is drawn again unchanged |
| Session.Clear | chat_interface.py:202-207 | conversation, transcript and system prompt all become empty, so the history is empty; the input box is untouched |
| Session.SelectModel | chat_interface.py:159-163 | a chosen model is kept; with none chosen, the first listed model is taken; an empty list leaves the selection as it was, empty included |
| Session.FailedListingSelectsSentinel | chat_interface.py:160-163 | when listing fails and no model was chosen, the sentinel string becomes the selected model |

## Left out

- Window layout, tags and colours, scrolling and focus (chat_interface.py:16-71, 134, 140, 146): these are presentation only.
- Threads and `root.after`: one send → stream → finalise cycle is treated as sequential. The callbacks run in the order they were scheduled, which is the FIFO order Tk delivers them in.
- HTTP through `requests` and JSON through `json.loads`, `json.dump` and `json.load`: the model starts from parsed chunks and from the persisted document as datatypes. Line splitting by `iter_lines` is abstracted as the `lines` input of `Ollama.ChatChunks`, and JSON decoding is its `parse` parameter.
- Malformed or failing streams, and a `content` that is JSON `null`: the source has no handling for these and they raise in the worker thread.
- File dialogs and `open`, including a cancelled dialog: these are external path choices and I/O.
- The Return/Shift key test in `handle_return`: this is UI event wiring.
- Ollama.AvailableModels: takes the status and decoded entries of a response that arrived. An unreachable server makes `requests.get` raise (ollama.py:33), uncaught through `update_model_list` and `setup_ui`, so the window never opens; a 200 body without `models`, or an entry without `name`, raises `KeyError` (ollama.py:35-36). Neither path returns the sentinel.
- The model name comes from the drop-down and is a parameter of `Session.Request`.
- Session.ClampTemperature: takes the result of `float()` as an `Option<real>`. Float parsing, `inf` and `nan` (which Python's `min`/`max` clamp to 1.0) are not modelled, because they are floating point.
- Numbers.ParseInt: accepts ASCII digits only. Python's `int()` also accepts other Unicode decimal digits, which this model rejects.
- Numbers.ParseInt: the digit limit is CPython's default of 4300. `sys.set_int_max_str_digits` and `PYTHONINTMAXSTRDIGITS` can change or lift it; the client does neither.
- Session.Load: every message is assumed to have `role` and `content`. In the source, an entry missing either raises `KeyError` partway through the redraw, and a `null` value for a key is not defaulted.
- Session.GreetingExchange: stated for any trimmed text and any two deltas, rather than the literal "Hello", "Hi" and " there". Those literals are one instance of it.
- The defaults of `chat_completion` (temperature 0.0, max_tokens 4080) are left out: the client always passes both.

## Findings

| source | as written | input that shows it | evidently intended | confidence | as-written member | corrected member |
|---|---|---|---|---|---|---|
| ollama.py:8 | `messages.length == 0`: a Python list has no `length` attribute, so this raises `AttributeError` | any non-empty `system_prompt`, e.g. `messages = []`, `system_prompt = "Be brief"` | `len(messages) == 0`: prepend one system message unless the list already opens with one | high (not executed); the client never passes `system_prompt`, so it does not reach this line | Ollama.PrependSystemAsWritten (shown by Ollama.LengthAttributeRaises) | Ollama.PrependSystem (with Ollama.PrependSystemIdempotent), used by Ollama.ChatPayload |

=== FILE: messages.dfy ===
/** Chat messages and how the transcript shows them. */
module Messages {
  import opened Text

  /** One entry of the conversation, as the client keeps it: `{"role": …, "content": …}`.
      Roles are free strings because a loaded session file may carry any role. */
  datatype Message = Message(role: string, content: string)

  const UserRole: string := "user"
  const AssistantRole: string := "assistant"
  const SystemRole: string := "system"

  /** The label line written before a message: `You:` for the user, `AI:` for every other role. */
  function Label(role: string): string {
    if role == UserRole then "You:\n" else "AI:\n"
  }

  /** The transcript text of one whole message: label, content, blank line. */
  function RenderMessage(m: Message): string {
    Label(m.role) + m.content + "\n\n"
  }

  /** The transcript text of a conversation, one message after another. */
  function Render(ms: seq<Message>): string {
    if ms == [] then "" else Render(ms[..|ms| - 1]) + RenderMessage(ms[|ms| - 1])
  }

  /** Rendering distributes over concatenation of conversations, so appending a
      message to the conversation appends its text to the transcript. */
  lemma {:induction false} RenderAppend(a: seq<Message>, b: seq<Message>)
    ensures Render(a + b) == Render(a) + Render(b)
    decreases |b|
  {
    if b == [] {
      assert a + b == a;
    } else {
      var init, last := b[..|b| - 1], b[|b| - 1];
      assert (a + b)[..|a + b| - 1] == a + init;
      assert (a + b)[|a + b| - 1] == last;
      RenderAppend(a, init);
      assert Render(a + b) == Render(a) + Render(init) + RenderMessage(last);
      assert Render(b) == Render(init) + RenderMessage(last);
    }
  }
}

=== FILE: numbers.dfy ===
/** Python's `int(text)` for a base-10 string, and the decimal numerals it reads. */
module Numbers {
  import opened Wrappers
  import opened Text

  predicate IsDigit(c: char) {
    '0' <= c <= '9'
  }

  function DigitValue(c: char): nat
    requires IsDigit(c)
  {
    (c as int) - ('0' as int)
  }

  function DigitChar(d: nat): char
    requires d < 10
  {
    (('0' as int) + d) as char
  }

  /** A digit group as `int()` accepts it, `digit (["_"] digit)*`: digits, where a
      single underscore may stand between two digits. */
  predicate DigitGroup(s: string)
    decreases |s|
  {
    && |s| > 0
    && IsDigit(s[|s| - 1])
    && (|s| == 1 || DigitGroup(s[..|s| - 1]) || (|s| >= 3 && s[|s| - 2] == '_' && DigitGroup(s[..|s| - 2])))
  }

  /** The number the digits of `s` spell, most significant first; underscores are skipped. */
  function GroupValue(s: string): nat {
    if s == [] then 0
    else if IsDigit(s[|s| - 1]) then GroupValue(s[..|s| - 1]) * 10 + DigitValue(s[|s| - 1])
    else GroupValue(s[..|s| - 1])
  }

  predicate IsSign(c: char) {
    c == '+' || c == '-'
  }

  /** The whitespace `int()` skips around a numeral: what `str.isspace()` accepts
      except the four ASCII separators U+001C to U+001F, which CPython converts
      unchanged and whose byte-level test (`Py_ISSPACE`) does not count as space. */
  predicate IsIntSpace(c: char) {
    IsSpace(c) && !(0x1c <= c as int <= 0x1f)
  }

  predicate AllIntSpace(s: string) {
    forall i :: 0 <= i < |s| ==> IsIntSpace(s[i])
  }

  /** The most digits `int()` converts under CPython's default
      `sys.get_int_max_str_digits()`; a longer numeral raises `ValueError`. */
  const MaxStrDigits: nat := 4300

  /** How many decimal digits `s` holds; signs and underscores do not count. */
  function DigitCount(s: string): (r: nat)
    ensures r <= |s|
  {
    if s == [] then 0 else DigitCount(s[..|s| - 1]) + (if IsDigit(s[|s| - 1]) then 1 else 0)
  }

  /** `int(text)`: the whitespace around the numeral is skipped, then an optional
      sign and a digit group of at most `MaxStrDigits` digits; anything else is a
      `ValueError`, here `None`. The numeral is what `strip()` leaves, and the
      text fails when `strip()` removed a separator that `int()` does not skip. */
  function ParseInt(text: string): (r: Option<int>)
    ensures AllSpace(text) ==> r == None
    ensures DigitCount(Strip(text)) > MaxStrDigits ==> r == None
    ensures r.Some? && r.value < 0 ==> Strip(text)[0] == '-'
  {
    var u := TrimStart(text);
    var t := TrimEnd(u);
    if !AllIntSpace(text[..|text| - |u|]) || !AllIntSpace(u[|t|..]) then None
    else if DigitCount(t) > MaxStrDigits then None
    else ParseNumeral(t)
  }

  /** The sign-and-digits part of `int()`, on already stripped text. */
  function ParseNumeral(t: string): (r: Option<int>)
    ensures t == [] ==> r == None
    ensures r.Some? && r.value < 0 ==> t[0] == '-'
  {
    if |t| > 0 && IsSign(t[0]) then
      var digits := t[1..];
      if DigitGroup(digits) then
        var v: int := GroupValue(digits);
        Some(if t[0] == '-' then -v else v)
      else
        None
    else if DigitGroup(t) then
      Some(GroupValue(t))
    else
      None
  }

  /** The decimal numeral of `n`, as Python's `str(n)` writes it. */
  function ShowNat(n: nat): (r: string)
    ensures |r| > 0 && IsDigit(r[0]) && IsDigit(r[|r| - 1])
  {
    if n < 10 then [DigitChar(n)] else ShowNat(n / 10) + [DigitChar(n % 10)]
  }

  function ShowInt(n: int): string {
    if n < 0 then "-" + ShowNat(-n) else ShowNat(n)
  }

  lemma {:induction false} ShowNatReads(n: nat)
    ensures DigitGroup(ShowNat(n))
    ensures GroupValue(ShowNat(n)) == n
    decreases n
  {
    var s := ShowNat(n);
    if n >= 10 {
      var p := ShowNat(n / 10);
      ShowNatReads(n / 10);
      assert s == p + [DigitChar(n % 10)];
      assert s[..|s| - 1] == p;
      assert DigitValue(s[|s| - 1]) == n % 10;
    } else {
      assert s[..0] == [];
      assert DigitValue(s[0]) == n;
    }
  }

  lemma ShowIntTrimmed(n: int)
    ensures Trimmed(ShowInt(n))
  {
    ShowNatReads(if n < 0 then -n else n);
  }

  lemma ParseShowNumeral(n: int)
    ensures ParseNumeral(ShowInt(n)) == Some(n)
  {
    var s := ShowInt(n);
    if n < 0 {
      ShowNatReads(-n);
      assert s[1..] == ShowNat(-n);
    } else {
      ShowNatReads(n);
      assert !IsSign(s[0]);
    }
  }

  /** Reading back what `str` writes gives the number again, `int(str(n)) == n`,
      also with whitespace `int()` skips around the numeral; a numeral of more
      than `MaxStrDigits` digits is refused instead. */
  lemma ParseShowRoundTrip(a: string, n: int, b: string)
    requires AllIntSpace(a) && AllIntSpace(b)
    ensures ParseInt(a + ShowInt(n) + b) == if DigitCount(ShowInt(n)) <= MaxStrDigits then Some(n) else None
  {
    var s := ShowInt(n);
    var text := a + s + b;
    ShowIntTrimmed(n);
    assert AllSpace(a) && AllSpace(b);
    assert text == a + (s + b);
    TrimStartSkipsSpace(a, s + b);
    TrimEndSkipsSpace(s, b);
    assert text[..|text| - |s + b|] == a;
    assert (s + b)[|s|..] == b;
    ParseShowNumeral(n);
  }

  /** Every character of a digit group is a digit or an underscore. */
  lemma {:induction false} DigitGroupChars(s: string)
    requires DigitGroup(s)
    ensures forall i :: 0 <= i < |s| ==> IsDigit(s[i]) || s[i] == '_'
    decreases |s|
  {
    if |s| > 1 {
      if DigitGroup(s[..|s| - 1]) {
        DigitGroupChars(s[..|s| - 1]);
        assert forall i :: 0 <= i < |s| - 1 ==> s[i] == s[..|s| - 1][i];
      } else {
        DigitGroupChars(s[..|s| - 2]);
        assert forall i :: 0 <= i < |s| - 2 ==> s[i] == s[..|s| - 2][i];
      }
    }
  }

  /** A numeral `ParseNumeral` accepts holds only a sign, digits and underscores. */
  lemma NumeralChars(t: string, k: nat)
    requires k < |t| && ParseNumeral(t).Some?
    ensures IsSign(t[k]) || IsDigit(t[k]) || t[k] == '_'
  {
    if IsSign(t[0]) {
      if k > 0 {
        DigitGroupChars(t[1..]);
        assert t[k] == t[1..][k - 1];
      }
    } else {
      DigitGroupChars(t);
    }
  }

  /** A character `int()` cannot read anywhere: not whitespace it skips, not a
      sign, not a digit and not an underscore. */
  predicate Foreign(c: char) {
    !IsIntSpace(c) && !IsSign(c) && !IsDigit(c) && c != '_'
  }

  /** `int()` refuses any text holding a foreign character, wherever it stands:
      around the numeral it is not skipped, and inside it is not read. */
  lemma ForeignRefused(text: string, k: nat)
    requires k < |text| && Foreign(text[k])
    ensures ParseInt(text) == None
  {
    var u := TrimStart(text);
    var t := TrimEnd(u);
    var j := Locate(text, u, t, k);
    if j < |t| && t[j] == text[k] && ParseNumeral(t).Some? {
      NumeralChars(t, j);
    }
  }

  /** The separators U+001C to U+001F, which `strip()` removes, make `int()` fail
      wherever they stand in the text. */
  lemma SeparatorRefused(a: string, c: char, b: string)
    requires 0x1c <= c as int <= 0x1f
    ensures ParseInt(a + [c] + b) == None
  {
    assert (a + [c] + b)[|a|] == c;
    ForeignRefused(a + [c] + b, |a|);
  }

  /** Where position `k` of `text` ends up once a prefix and then a suffix are cut
      off: in the cut prefix, in the cut suffix, or at position `j` of what is left. */
  lemma Locate(text: string, u: string, t: string, k: nat) returns (j: nat)
    requires k < |text|
    requires |u| <= |text| && u == text[|text| - |u|..]
    requires |t| <= |u| && t == u[..|t|]
    ensures || (k < |text| - |u| && text[..|text| - |u|][k] == text[k])
            || (j < |t| && t[j] == text[k])
            || (k - (|text| - |u|) - |t| >= 0 && u[|t|..][k - (|text| - |u|) - |t|] == text[k])
  {
    var i := |text| - |u|;
    j := if k < i then 0 else k - i;
  }
}

=== FILE: ollama.dfy ===
/** The backend client: shaping a chat request, splitting its streamed body,
    and listing the installed models. */
module Ollama {
  import opened Wrappers
  import opened Messages

  /** The exception `chat_completion` raises as written. */
  datatype Error = AttributeError(attribute: string)

  predicate StartsWithSystem(messages: seq<Message>) {
    |messages| > 0 && messages[0].role == SystemRole
  }

  /** The system-prompt rule as intended: prepend one system message unless the
      prompt is empty or the list already opens with a system message. */
  function PrependSystem(messages: seq<Message>, systemPrompt: string): (r: seq<Message>)
    ensures |r| == |messages| || |r| == |messages| + 1
    ensures r[|r| - |messages|..] == messages
    ensures systemPrompt != "" ==> StartsWithSystem(r)
    ensures |r| == |messages| + 1 <==> systemPrompt != "" && !StartsWithSystem(messages)
    ensures |r| == |messages| + 1 ==> r[0] == Message(SystemRole, systemPrompt)
  {
    if systemPrompt != "" && !StartsWithSystem(messages) then
      [Message(SystemRole, systemPrompt)] + messages
    else
      messages
  }

  /** The rule as written: the guard reads `messages.length`, which a Python list
      does not have, so any non-empty prompt raises before the check is made. */
  function PrependSystemAsWritten(messages: seq<Message>, systemPrompt: string): (r: Result<seq<Message>, Error>)
    ensures systemPrompt == "" ==> r == Success(messages)
    ensures systemPrompt != "" ==> r.Failure?
  {
    if systemPrompt != "" then Failure(AttributeError("length")) else Success(messages)
  }

  /** The system message is never duplicated: applying the rule to its own result changes nothing. */
  lemma PrependSystemIdempotent(messages: seq<Message>, systemPrompt: string)
    ensures PrependSystem(PrependSystem(messages, systemPrompt), systemPrompt) == PrependSystem(messages, systemPrompt)
  {
  }

  /** On the only path the client uses (no `system_prompt` argument) the code as
      written and the intended rule agree. */
  lemma AsWrittenAgreesWithoutPrompt(messages: seq<Message>)
    ensures PrependSystemAsWritten(messages, "") == Success(PrependSystem(messages, ""))
  {
  }

  /** A concrete input showing the discrepancy: an empty history with a prompt
      should gain one system message, but the code as written raises. */
  lemma LengthAttributeRaises()
    ensures PrependSystem([], "Be brief") == [Message(SystemRole, "Be brief")]
    ensures PrependSystemAsWritten([], "Be brief") == Failure(AttributeError("length"))
  {
  }

  datatype RequestOptions = RequestOptions(temperature: real, numPredict: int)

  /** The JSON body posted to `/api/chat`. */
  datatype ChatRequest = ChatRequest(model: string, messages: seq<Message>, stream: bool, options: RequestOptions)

  /** The request `chat_completion` posts: always streaming, with the sampling
      options under `options` and the system-prompt rule applied to the messages. */
  function ChatPayload(model: string, messages: seq<Message>, temperature: real, maxTokens: int, systemPrompt: string): (r: ChatRequest)
    ensures r.stream
    ensures r.model == model
    ensures r.options.temperature == temperature && r.options.numPredict == maxTokens
    ensures r.messages == PrependSystem(messages, systemPrompt)
    ensures systemPrompt != "" && !StartsWithSystem(messages) ==> r.messages == [Message(SystemRole, systemPrompt)] + messages
    ensures systemPrompt == "" || StartsWithSystem(messages) ==> r.messages == messages
    ensures |r.messages| >= |messages| && r.messages[|r.messages| - |messages|..] == messages
  {
    ChatRequest(model, PrependSystem(messages, systemPrompt), true, RequestOptions(temperature, maxTokens))
  }

  /** The `message` object of a streamed line; its `content` key may be missing. */
  datatype ChunkMessage = ChunkMessage(content: Option<string>)

  /** One parsed line of the streamed body: an optional `message` and the `done` flag
      (a missing `done` reads as false). */
  datatype Chunk = Chunk(message: Option<ChunkMessage>, done: bool)

  /** The lines of the response body that are parsed into chunks: the non-empty
      ones, in their original order. */
  function NonEmptyLines(lines: seq<string>): (r: seq<string>)
    ensures |r| <= |lines|
    ensures forall i :: 0 <= i < |r| ==> r[i] != []
    ensures multiset(r) == multiset(lines)[[] := 0]
  {
    if lines == [] then []
    else
      var rest := NonEmptyLines(lines[1..]);
      assert lines == [lines[0]] + lines[1..];
      if lines[0] == [] then rest else [lines[0]] + rest
  }

  /** The filter works line by line: the chunks of two consecutive pieces of
      the body are the chunks of the first followed by those of the second. */
  lemma {:induction false} NonEmptyLinesAppend(a: seq<string>, b: seq<string>)
    ensures NonEmptyLines(a + b) == NonEmptyLines(a) + NonEmptyLines(b)
    decreases |a|
  {
    if a != [] {
      assert (a + b)[1..] == a[1..] + b;
      NonEmptyLinesAppend(a[1..], b);
    } else {
      assert a + b == b;
    }
  }

  /** A body without empty lines yields one chunk per line, unchanged. */
  lemma {:induction false} NonEmptyLinesKeepsAll(lines: seq<string>)
    requires forall i :: 0 <= i < |lines| ==> lines[i] != []
    ensures NonEmptyLines(lines) == lines
    decreases |lines|
  {
    if lines != [] {
      NonEmptyLinesKeepsAll(lines[1..]);
    }
  }

  /** What `chat_completion` yields for a body: `parse` (JSON decoding) applied to
      each non-empty line, in order. */
  function ChatChunks(lines: seq<string>, parse: string -> Chunk): (r: seq<Chunk>)
    ensures |r| == |NonEmptyLines(lines)|
    ensures forall i :: 0 <= i < |r| ==> r[i] == parse(NonEmptyLines(lines)[i])
  {
    var kept := NonEmptyLines(lines);
    seq(|kept|, i requires 0 <= i < |kept| => parse(kept[i]))
  }

  /** One entry of the `models` list returned by `/api/tags`. */
  datatype ModelEntry = ModelEntry(name: string)

  const ModelListError: string := "Error fetching models"

  /** `get_available_models`: the names of the listed models on status 200,
      otherwise the single sentinel entry. */
  function AvailableModels(status: int, models: seq<ModelEntry>): (r: seq<string>)
    ensures status != 200 ==> r == [ModelListError]
    ensures status == 200 ==> |r| == |models| && forall i :: 0 <= i < |r| ==> r[i] == models[i].name
  {
    if status == 200 then seq(|models|, i requires 0 <= i < |models| => models[i].name) else [ModelListError]
  }
}

=== FILE: session.dfy ===
/** The conversation controller of the chat window, with its widgets reduced to
    the text they hold: every user action is a pure transition of `Session`. */
module Session {
  import opened Wrappers
  import opened Text
  import opened Numbers
  import opened Messages
  import opened Ollama
  import opened Stream

  /** The controller's state: the stored conversation, the system-prompt box,
      the transcript display, the input box and whether the input box is disabled. */
  datatype Session = Session(
    conversation: seq<Message>,
    systemPrompt: string,
    transcript: string,
    input: string,
    inputLocked: bool)

  const Initial: Session := Session([], "", "", "", false)

  /** The transcript shows exactly the stored conversation, as a reload would draw it. */
  predicate Consistent(s: Session) {
    s.transcript == Render(s.conversation)
  }

  /** A disabled input box is empty: it was cleared before it was disabled and
      cannot be typed into while disabled. */
  predicate LockedInputEmpty(s: Session) {
    s.inputLocked ==> s.input == ""
  }

  /** What a Tk text box returns for `get("1.0", END)`: its contents and a final newline. */
  function BoxText(contents: string): string {
    contents + "\n"
  }

  /** `add_message`: store the message and draw it whole. */
  function AddMessage(s: Session, role: string, content: string): (r: Session)
    ensures r.conversation == s.conversation + [Message(role, content)]
    ensures r.transcript == s.transcript + RenderMessage(Message(role, content))
    ensures Consistent(s) ==> Consistent(r)
    ensures r.systemPrompt == s.systemPrompt && r.input == s.input && r.inputLocked == s.inputLocked
  {
    var m := Message(role, content);
    assert (s.conversation + [m])[..|s.conversation|] == s.conversation;
    s.(conversation := s.conversation + [m], transcript := s.transcript + RenderMessage(m))
  }

  /** `send_message_async`: a blank input changes nothing; otherwise the stripped
      text becomes a user message, the input box is cleared and disabled. */
  function Send(s: Session): (r: Session)
    ensures Strip(s.input) == [] ==> r == s
    ensures Strip(s.input) != [] ==>
      && r.conversation == s.conversation + [Message(UserRole, Strip(s.input))]
      && r.transcript == s.transcript + RenderMessage(Message(UserRole, Strip(s.input)))
      && r.input == "" && r.inputLocked
      && r.systemPrompt == s.systemPrompt
    ensures Consistent(s) ==> Consistent(r)
    ensures LockedInputEmpty(s) ==> LockedInputEmpty(r)
  {
    StripTrailingNewline(s.input);
    var text := Strip(BoxText(s.input));
    if text == [] then s
    else AddMessage(s, UserRole, text).(input := "", inputLocked := true)
  }

  /** While a response is streaming nothing can be sent: the disabled input box
      is empty, so a second send is a no-op. */
  lemma SendWhileLocked(s: Session)
    requires LockedInputEmpty(s) && s.inputLocked
    ensures Send(s) == s
  {
    assert AllSpace(s.input);
  }

  /** `prepare_conversation_history`: the stored conversation, preceded by the
      stripped system prompt as a system message when it is not blank. */
  function History(s: Session): (r: seq<Message>)
    ensures Strip(s.systemPrompt) == [] ==> r == s.conversation
    ensures Strip(s.systemPrompt) != [] ==> |r| == |s.conversation| + 1 && r[0] == Message(SystemRole, Strip(s.systemPrompt))
    ensures r[|r| - |s.conversation|..] == s.conversation
  {
    StripTrailingNewline(s.systemPrompt);
    var prompt := Strip(BoxText(s.systemPrompt));
    if prompt != [] then [Message(SystemRole, prompt)] + s.conversation else s.conversation
  }

  /** The history differs from the backend's own system-prompt rule exactly when the
      stored conversation already opens with a system message (as a loaded file
      may): the history then carries two system messages. */
  lemma HistoryVersusBackendRule(s: Session)
    ensures History(s) == PrependSystem(s.conversation, Strip(s.systemPrompt))
        <==> Strip(s.systemPrompt) == [] || !StartsWithSystem(s.conversation)
  {
    if Strip(s.systemPrompt) != [] && StartsWithSystem(s.conversation) {
      assert |History(s)| != |PrependSystem(s.conversation, Strip(s.systemPrompt))|;
    }
  }

  const DefaultMaxTokens: int := 4000

  /** The max-tokens box: `int()` of its text, floored at 1; 4000 when it does not parse. */
  function EffectiveMaxTokens(text: string): (r: int)
    ensures r >= 1
    ensures ParseInt(text) == None ==> r == DefaultMaxTokens
    ensures ParseInt(text).Some? ==> r == if ParseInt(text).value < 1 then 1 else ParseInt(text).value
  {
    match ParseInt(text)
    case None => DefaultMaxTokens
    case Some(n) => if n < 1 then 1 else n
  }

  /** A numeral in the box, with whitespace `int()` skips around it or not, is taken
      at its value floored at 1; one of more than 4300 digits makes `int()` raise,
      which gives the default. */
  lemma MaxTokensOfNumeral(a: string, n: int, b: string)
    requires AllIntSpace(a) && AllIntSpace(b)
    ensures EffectiveMaxTokens(a + ShowInt(n) + b)
         == if DigitCount(ShowInt(n)) > MaxStrDigits then DefaultMaxTokens else if n < 1 then 1 else n
  {
    ParseShowRoundTrip(a, n, b);
  }

  /** A separator U+001C to U+001F anywhere in the box makes `int()` raise, though
      `strip()` would have removed it at either end: the default applies. */
  lemma MaxTokensWithSeparator(a: string, c: char, b: string)
    requires 0x1c <= c as int <= 0x1f
    ensures EffectiveMaxTokens(a + [c] + b) == DefaultMaxTokens
  {
    SeparatorRefused(a, c, b);
  }

  /** Text that is blank or, once stripped, does not end in a digit (a word such
      as "abc") does not parse and falls back to the default. */
  lemma MaxTokensOfNonNumeral(text: string)
    requires Strip(text) == [] || !IsDigit(Strip(text)[|Strip(text)| - 1])
    ensures EffectiveMaxTokens(text) == DefaultMaxTokens
  {
    var t := Strip(text);
    if |t| > 1 {
      assert t[1..][|t[1..]| - 1] == t[|t| - 1];
    }
  }

  /** The temperature box, from the value `float()` read (or `None` when it raised
      `ValueError`): clamped into [0, 1], and 0.0 when the text did not parse. */
  function ClampTemperature(parsed: Option<real>): (r: real)
    ensures 0.0 <= r <= 1.0
    ensures parsed == None ==> r == 0.0
    ensures parsed.Some? && 0.0 <= parsed.value <= 1.0 ==> r == parsed.value
    ensures parsed.Some? && parsed.value < 0.0 ==> r == 0.0
    ensures parsed.Some? && parsed.value > 1.0 ==> r == 1.0
  {
    match parsed
    case None => 0.0
    case Some(t) =>
      var low := if 1.0 < t then 1.0 else t;
      if 0.0 < low then low else 0.0
  }

  /** `get_ai_response`: the request for the current state. The client passes no
      `system_prompt` to the backend; the prompt is already in the history. */
  function Request(s: Session, model: string, temperature: Option<real>, maxTokensText: string): (r: ChatRequest)
    ensures r.stream && r.model == model
    ensures r.messages == History(s)
    ensures r.options.numPredict >= 1 && 0.0 <= r.options.temperature <= 1.0
    ensures r.options.numPredict == EffectiveMaxTokens(maxTokensText)
    ensures r.options.temperature == ClampTemperature(temperature)
  {
    ChatPayload(model, History(s), ClampTemperature(temperature), EffectiveMaxTokens(maxTokensText), "")
  }

  /** One scheduled display callback: `update_chat_with_stream` writes the `AI:`
      label before the first token and then the token; `finalize_ai_response`
      writes the blank line and enables the input box. */
  function ApplyEvent(s: Session, e: UiEvent): Session {
    match e
    case Update(content, isFirst) =>
      s.(transcript := s.transcript + (if isFirst then "AI:\n" else "") + content)
    case Finalize =>
      s.(transcript := s.transcript + "\n\n", inputLocked := false)
  }

  /** The callbacks run on the UI thread in the order they were scheduled. */
  function ApplyEvents(s: Session, events: seq<UiEvent>): Session {
    if events == [] then s else ApplyEvent(ApplyEvents(s, events[..|events| - 1]), events[|events| - 1])
  }

  /** The updates for a response write the label once, before the first delta,
      and then every delta in order; with no delta they write nothing. */
  lemma {:induction false} ApplyUpdates(s: Session, deltas: seq<string>)
    ensures ApplyEvents(s, Updates(deltas)).transcript
        == s.transcript + (if deltas == [] then "" else "AI:\n" + Concat(deltas))
    ensures ApplyEvents(s, Updates(deltas)).(transcript := s.transcript) == s
    decreases |deltas|
  {
    if deltas != [] {
      var init := deltas[..|deltas| - 1];
      var d := deltas[|deltas| - 1];
      assert deltas == init + [d];
      UpdatesSnoc(init, d);
      assert Updates(deltas)[..|deltas| - 1] == Updates(init);
      ApplyUpdates(s, init);
      if init != [] {
        assert Concat(deltas) == Concat(init) + d;
      } else {
        assert Concat(deltas) == Concat([]) + d;
      }
    }
  }

  /** The state once a response has streamed in and every scheduled callback has
      run: exactly one assistant message holding the accumulated text is stored
      (even when empty), the `AI:` label appears iff a message-bearing chunk was
      read, the blank line is always written and the input box is enabled. */
  function AfterStream(s: Session, chunks: seq<Chunk>): (r: Session)
    ensures r.conversation == s.conversation + [Message(AssistantRole, Accumulated(chunks))]
    ensures Deltas(Consumed(chunks)) == [] ==> r.transcript == s.transcript + "\n\n"
    ensures Deltas(Consumed(chunks)) != [] ==> r.transcript == s.transcript + "AI:\n" + Accumulated(chunks) + "\n\n"
    ensures !r.inputLocked
    ensures r.systemPrompt == s.systemPrompt && r.input == s.input
  {
    var deltas := Deltas(Consumed(chunks));
    var stored := s.(conversation := s.conversation + [Message(AssistantRole, Accumulated(chunks))]);
    var events := Updates(deltas) + [Finalize];
    assert events[..|events| - 1] == Updates(deltas);
    ApplyUpdates(stored, deltas);
    ApplyEvents(stored, events)
  }

  /** `stream_ai_response` followed by the callbacks it scheduled: the loop over
      the chunks, the append of the assistant message, then the display updates. */
  method RunStream(s: Session, chunks: seq<Chunk>) returns (r: Session)
    ensures r == AfterStream(s, chunks)
  {
    var response, events := StreamAiResponse(chunks);
    r := s.(conversation := s.conversation + [Message(AssistantRole, response)]);
    r := ApplyEvents(r, events);
  }

  /** A streamed assistant message is drawn exactly as `add_message` (or a reload)
      draws it iff at least one message-bearing chunk was read; an empty stream
      stores an empty assistant message that the live transcript never labelled. */
  lemma StreamedMatchesTyped(s: Session, chunks: seq<Chunk>)
    requires Consistent(s)
    ensures Consistent(AfterStream(s, chunks)) <==> Deltas(Consumed(chunks)) != []
  {
    var r := AfterStream(s, chunks);
    var m := Message(AssistantRole, Accumulated(chunks));
    RenderAppend(s.conversation, [m]);
    assert Render([m]) == Render([]) + RenderMessage(m);
    if Deltas(Consumed(chunks)) == [] {
      assert |r.transcript| < |Render(r.conversation)|;
    }
  }

  /** A whole exchange: a send, and for a non-blank one its streamed reply. */
  function Exchange(s: Session, chunks: seq<Chunk>): (r: Session)
    ensures Strip(s.input) == [] ==> r == s
    ensures Strip(s.input) != [] ==>
      && r.conversation == s.conversation + [Message(UserRole, Strip(s.input)), Message(AssistantRole, Accumulated(chunks))]
      && !r.inputLocked
  {
    if Strip(s.input) == [] then s
    else
      AppendTwo(s.conversation, Message(UserRole, Strip(s.input)), Message(AssistantRole, Accumulated(chunks)));
      AfterStream(Send(s), chunks)
  }

  lemma AppendTwo(ms: seq<Message>, a: Message, b: Message)
    ensures ms + [a] + [b] == ms + [a, b]
  {
  }

  /** A transcript that shows the conversation keeps showing it across an exchange
      exactly when the reply carried at least one message-bearing chunk. */
  lemma ExchangeKeepsTranscript(s: Session, chunks: seq<Chunk>)
    requires Consistent(s) && !s.inputLocked && Strip(s.input) != []
    ensures Consistent(Exchange(s, chunks)) <==> Deltas(Consumed(chunks)) != []
  {
    StreamedMatchesTyped(Send(s), chunks);
  }

  /** The document a session file holds; either key may be missing. */
  datatype Document = Document(systemPrompt: Option<string>, conversation: Option<seq<Message>>)

  /** `save_conversation`: the stripped system prompt and the stored conversation. */
  function Save(s: Session): (d: Document)
    ensures d.systemPrompt == Some(Strip(s.systemPrompt))
    ensures d.conversation == Some(s.conversation)
  {
    StripTrailingNewline(s.systemPrompt);
    Document(Some(Strip(BoxText(s.systemPrompt))), Some(s.conversation))
  }

  /** `load_conversation`: the document replaces conversation and system prompt
      wholesale (missing keys read as empty) and the transcript is redrawn from it. */
  function Load(s: Session, d: Document): (r: Session)
    ensures r.conversation == d.conversation.GetOr([])
    ensures r.systemPrompt == d.systemPrompt.GetOr("")
    ensures Consistent(r)
    ensures r.input == s.input && r.inputLocked == s.inputLocked
  {
    var conversation := d.conversation.GetOr([]);
    Session(conversation, d.systemPrompt.GetOr(""), Render(conversation), s.input, s.inputLocked)
  }

  /** The redraw loop of `load_conversation`: label and content of each message in turn. */
  method Redraw(conversation: seq<Message>) returns (transcript: string)
    ensures transcript == Render(conversation)
  {
    transcript := "";
    var i := 0;
    while i < |conversation|
      invariant 0 <= i <= |conversation|
      invariant transcript == Render(conversation[..i])
    {
      var m := conversation[i];
      assert conversation[..i + 1][..i] == conversation[..i];
      assert Render(conversation[..i + 1]) == Render(conversation[..i]) + RenderMessage(m);
      transcript := transcript + Label(m.role);
      transcript := transcript + m.content + "\n\n";
      i := i + 1;
    }
    assert conversation[..i] == conversation;
  }

  /** The history is determined by the conversation and the stripped prompt. */
  lemma HistoryOfStrippedPrompt(s: Session)
    ensures History(s) == if Strip(s.systemPrompt) == [] then s.conversation
                          else [Message(SystemRole, Strip(s.systemPrompt))] + s.conversation
  {
    StripTrailingNewline(s.systemPrompt);
  }

  /** Saving and loading back reproduces the conversation and the request history,
      and a transcript that showed the conversation is drawn again unchanged. */
  lemma SaveLoadRoundTrip(s: Session, t: Session)
    ensures Load(t, Save(s)).conversation == s.conversation
    ensures History(Load(t, Save(s))) == History(s)
    ensures Consistent(s) ==> Load(t, Save(s)).transcript == s.transcript
  {
    var loaded := Load(t, Save(s));
    assert loaded.systemPrompt == Strip(s.systemPrompt);
    StripIdempotent(s.systemPrompt);
    HistoryOfStrippedPrompt(loaded);
    HistoryOfStrippedPrompt(s);
  }

  /** `clear_conversation`: conversation, transcript and system prompt all emptied. */
  function Clear(s: Session): (r: Session)
    ensures r.conversation == [] && r.transcript == [] && r.systemPrompt == []
    ensures Consistent(r) && History(r) == []
    ensures r.input == s.input && r.inputLocked == s.inputLocked
  {
    assert AllSpace("");
    s.(conversation := [], transcript := "", systemPrompt := "")
  }

  /** `update_model_list`: keep a chosen model, otherwise pick the first listed one. */
  function SelectModel(current: string, models: seq<string>): (r: string)
    ensures current != "" ==> r == current
    ensures current == "" && models != [] ==> r == models[0]
    ensures models == [] ==> r == current
  {
    if models != [] && current == "" then models[0] else current
  }

  /** When listing fails and no model was chosen, the sentinel becomes the model. */
  lemma FailedListingSelectsSentinel(status: int, models: seq<ModelEntry>)
    requires status != 200
    ensures SelectModel("", AvailableModels(status, models)) == ModelListError
  {
  }

  /** A reply streamed as two deltas, the second on the `done` chunk, followed by
      chunks that are never read. */
  function TwoPartReply(first: string, second: string, ignored: seq<Chunk>): seq<Chunk> {
    [Chunk(Some(ChunkMessage(Some(first))), false), Chunk(Some(ChunkMessage(Some(second))), true)] + ignored
  }

  lemma TwoPartReplyText(first: string, second: string, ignored: seq<Chunk>)
    ensures Deltas(Consumed(TwoPartReply(first, second, ignored))) == [first, second]
    ensures Accumulated(TwoPartReply(first, second, ignored)) == first + second
  {
    var chunks := TwoPartReply(first, second, ignored);
    ConsumedStopsAt(chunks, 1);
    var consumed := chunks[..2];
    assert consumed[1..][1..] == [];
    assert Deltas(consumed[1..]) == [second];
    assert Concat([first, second]) == Concat([first]) + second;
    assert Concat([first]) == Concat([]) + first;
  }

  /** The greeting scenario, for any greeting and any two-part reply: "Hello" sent
      and the reply "Hi", " there" streamed give the transcript
      "You:\nHello\n\nAI:\nHi there\n\n" and a two-message conversation. */
  lemma GreetingExchange(text: string, first: string, second: string, ignored: seq<Chunk>)
    requires Strip(text) == text && text != []
    ensures var s := Exchange(Initial.(input := text), TwoPartReply(first, second, ignored));
            && s.conversation == [Message(UserRole, text), Message(AssistantRole, first + second)]
            && s.transcript == "You:\n" + text + "\n\n" + "AI:\n" + first + second + "\n\n"
            && !s.inputLocked
  {
    var start := Initial.(input := text);
    var chunks := TwoPartReply(first, second, ignored);
    TwoPartReplyText(first, second, ignored);
    var sent := Send(start);
    var r := AfterStream(sent, chunks);
    assert Exchange(start, chunks) == r;
    assert sent.transcript == "You:\n" + text + "\n\n" by {
      assert sent.transcript == "" + RenderMessage(Message(UserRole, text));
    }
    assert r.transcript == sent.transcript + "AI:\n" + (first + second) + "\n\n";
  }
}

=== FILE: stream.dfy ===
/** Reading one streamed response: which chunks are consumed, what they
    contribute, and the display updates scheduled for them. */
module Stream {
  import opened Wrappers
  import opened Text
  import opened Ollama

  /** The chunks the client reads: everything up to and including the first
      `done` chunk; later chunks are never looked at. */
  function Consumed(chunks: seq<Chunk>): (r: seq<Chunk>)
    ensures |r| <= |chunks| && r == chunks[..|r|]
    ensures forall i :: 0 <= i < |r| - 1 ==> !r[i].done
    ensures r == chunks || (|r| > 0 && r[|r| - 1].done)
  {
    if chunks == [] then []
    else if chunks[0].done then [chunks[0]]
    else
      var rest := Consumed(chunks[1..]);
      assert chunks == [chunks[0]] + chunks[1..];
      [chunks[0]] + rest
  }

  /** Reading stops at the first `done` chunk at index `i`. */
  lemma ConsumedStopsAt(chunks: seq<Chunk>, i: nat)
    requires i < |chunks| && chunks[i].done
    requires forall j :: 0 <= j < i ==> !chunks[j].done
    ensures Consumed(chunks) == chunks[..i + 1]
  {
  }

  /** Without a `done` chunk the whole stream is read. */
  lemma ConsumedAll(chunks: seq<Chunk>)
    requires forall j :: 0 <= j < |chunks| ==> !chunks[j].done
    ensures Consumed(chunks) == chunks
  {
  }

  /** The text one message-bearing chunk contributes: its `content`, or "" when absent. */
  function Delta(c: Chunk): string
    requires c.message.Some?
  {
    c.message.value.content.GetOr("")
  }

  /** The deltas of the message-bearing chunks of `chunks`, in order. */
  function Deltas(chunks: seq<Chunk>): (r: seq<string>)
    ensures |r| <= |chunks|
    ensures r == [] <==> forall i :: 0 <= i < |chunks| ==> chunks[i].message.None?
  {
    if chunks == [] then []
    else
      var rest := Deltas(chunks[1..]);
      assert forall i :: 1 <= i < |chunks| ==> chunks[i] == chunks[1..][i - 1];
      if chunks[0].message.Some? then [Delta(chunks[0])] + rest else rest
  }

  lemma {:induction false} DeltasAppend(a: seq<Chunk>, b: seq<Chunk>)
    ensures Deltas(a + b) == Deltas(a) + Deltas(b)
    decreases |a|
  {
    if a == [] {
      assert a + b == b;
    } else {
      assert (a + b)[1..] == a[1..] + b;
      DeltasAppend(a[1..], b);
    }
  }

  /** Reading one more chunk adds its delta when it carries a message, and nothing otherwise. */
  lemma DeltasStep(chunks: seq<Chunk>, i: nat)
    requires i < |chunks|
    ensures chunks[i].message.Some? ==> Deltas(chunks[..i + 1]) == Deltas(chunks[..i]) + [Delta(chunks[i])]
    ensures chunks[i].message.None? ==> Deltas(chunks[..i + 1]) == Deltas(chunks[..i])
  {
    assert chunks[..i + 1] == chunks[..i] + [chunks[i]];
    DeltasAppend(chunks[..i], [chunks[i]]);
    assert [chunks[i]][1..] == [];
    assert Deltas(chunks[..i]) + [] == Deltas(chunks[..i]);
  }

  /** The full response text: the deltas of the consumed chunks, concatenated in order. */
  function Accumulated(chunks: seq<Chunk>): string {
    Concat(Deltas(Consumed(chunks)))
  }

  /** A display callback scheduled on the UI thread: one per delta, then one finalisation. */
  datatype UiEvent = Update(content: string, isFirst: bool) | Finalize

  /** One update per delta, in order, with only the first marked as the first token. */
  function Updates(deltas: seq<string>): seq<UiEvent> {
    seq(|deltas|, i requires 0 <= i < |deltas| => Update(deltas[i], i == 0))
  }

  lemma UpdatesSnoc(deltas: seq<string>, d: string)
    ensures Updates(deltas + [d]) == Updates(deltas) + [Update(d, deltas == [])]
  {
  }

  /** The loop of `stream_ai_response`: accumulate the content of message-bearing
      chunks, schedule one display update per such chunk (the first one flagged),
      stop after the first `done` chunk, then schedule the finalisation. */
  method StreamAiResponse(chunks: seq<Chunk>) returns (response: string, events: seq<UiEvent>)
    ensures response == Accumulated(chunks)
    ensures events == Updates(Deltas(Consumed(chunks))) + [Finalize]
  {
    response := "";
    events := [];
    var isFirst := true;
    var i := 0;
    while i < |chunks|
      invariant 0 <= i <= |chunks|
      invariant forall j :: 0 <= j < i ==> !chunks[j].done
      invariant response == Concat(Deltas(chunks[..i]))
      invariant events == Updates(Deltas(chunks[..i]))
      invariant isFirst <==> Deltas(chunks[..i]) == []
    {
      var chunk := chunks[i];
      var before := Deltas(chunks[..i]);
      DeltasStep(chunks, i);
      if chunk.message.Some? {
        var content := Delta(chunk);
        ConcatAppend(before, [content]);
        assert Concat([content]) == content;
        UpdatesSnoc(before, content);
        response := response + content;
        events := events + [Update(content, isFirst)];
        isFirst := false;
      }
      if chunk.done {
        ConsumedStopsAt(chunks, i);
        break;
      }
      i := i + 1;
    }
    if i == |chunks| {
      ConsumedAll(chunks);
      assert chunks[..i] == chunks;
    }
    events := events + [Finalize];
  }
}

=== FILE: text.dfy ===
/** Python string helpers the client relies on: `str.strip()` and `+=` accumulation. */
module Text {

  /** Python's `str.isspace()` for one character: the ASCII whitespace and
      separator controls plus the Unicode space separators. */
  predicate IsSpace(c: char) {
    var n := c as int;
    || n == 0x20
    || 0x09 <= n <= 0x0d
    || 0x1c <= n <= 0x1f
    || n == 0x85
    || n == 0xa0
    || n == 0x1680
    || 0x2000 <= n <= 0x200a
    || n == 0x2028
    || n == 0x2029
    || n == 0x202f
    || n == 0x205f
    || n == 0x3000
  }

  predicate AllSpace(s: string) {
    forall i :: 0 <= i < |s| ==> IsSpace(s[i])
  }

  /** Neither end of `s` is whitespace: the shape of every stripped string. */
  predicate Trimmed(s: string) {
    s == [] || (!IsSpace(s[0]) && !IsSpace(s[|s| - 1]))
  }

  /** `str.lstrip()`: drops the leading whitespace and keeps the rest. */
  function TrimStart(s: string): (r: string)
    ensures |r| <= |s| && r == s[|s| - |r|..]
    ensures AllSpace(s[..|s| - |r|])
    ensures r == [] || !IsSpace(r[0])
  {
    if |s| > 0 && IsSpace(s[0]) then
      var r := TrimStart(s[1..]);
      assert s[..|s| - |r|] == [s[0]] + s[1..][..|s| - 1 - |r|];
      AllSpaceAppend([s[0]], s[1..][..|s| - 1 - |r|]);
      r
    else
      s
  }

  /** `str.rstrip()`: drops the trailing whitespace and keeps the rest. */
  function TrimEnd(s: string): (r: string)
    ensures |r| <= |s| && r == s[..|r|]
    ensures AllSpace(s[|r|..])
    ensures r == [] || !IsSpace(r[|r| - 1])
  {
    if |s| > 0 && IsSpace(s[|s| - 1]) then
      var r := TrimEnd(s[..|s| - 1]);
      assert s[|r|..] == s[..|s| - 1][|r|..] + [s[|s| - 1]];
      AllSpaceAppend(s[..|s| - 1][|r|..], [s[|s| - 1]]);
      r
    else
      s
  }

  /** `str.strip()`: the infix of `s` left once whitespace is removed from both ends. */
  function Strip(s: string): (r: string)
    ensures Trimmed(r)
    ensures r == [] <==> AllSpace(s)
  {
    var u := TrimStart(s);
    var r := TrimEnd(u);
    StripTrimmed(u, r);
    StripEmpty(s, u, r);
    r
  }

  /** `Strip(s)` is an infix of `s` and everything around it is whitespace. */
  lemma StripSplits(s: string) returns (pre: string, post: string)
    ensures s == pre + Strip(s) + post
    ensures AllSpace(pre) && AllSpace(post)
  {
    var u := TrimStart(s);
    pre, post := Decompose(s, u, TrimEnd(u));
  }

  /** The split behind `StripSplits`, from the promises of the two trims alone. */
  lemma Decompose(s: string, u: string, r: string) returns (pre: string, post: string)
    requires |u| <= |s| && u == s[|s| - |u|..] && AllSpace(s[..|s| - |u|])
    requires |r| <= |u| && r == u[..|r|] && AllSpace(u[|r|..])
    ensures s == pre + r + post
    ensures AllSpace(pre) && AllSpace(post)
  {
    var i := |s| - |u|;
    pre, post := s[..i], u[|r|..];
    assert u == r + post;
    assert s == pre + u;
  }

  lemma AllSpaceAppend(a: string, b: string)
    ensures AllSpace(a + b) <==> AllSpace(a) && AllSpace(b)
  {
    if AllSpace(a) && AllSpace(b) {
      forall i | 0 <= i < |a + b|
        ensures IsSpace((a + b)[i])
      {
        if i >= |a| {
          assert (a + b)[i] == b[i - |a|];
        }
      }
    }
    if AllSpace(a + b) {
      forall i | 0 <= i < |a|
        ensures IsSpace(a[i])
      {
        assert a[i] == (a + b)[i];
      }
      forall i | 0 <= i < |b|
        ensures IsSpace(b[i])
      {
        assert b[i] == (a + b)[|a| + i];
      }
    }
  }

  lemma StripTrimmed(u: string, r: string)
    requires r == TrimEnd(u)
    requires u == [] || !IsSpace(u[0])
    ensures Trimmed(r)
  {
    if r != [] {
      assert r[0] == u[0];
    }
  }

  lemma StripEmpty(s: string, u: string, r: string)
    requires |u| <= |s| && u == s[|s| - |u|..] && AllSpace(s[..|s| - |u|])
    requires u == [] || !IsSpace(u[0])
    requires |r| <= |u| && r == u[..|r|] && AllSpace(u[|r|..])
    ensures r == [] <==> AllSpace(s)
  {
    var i := |s| - |u|;
    assert s == s[..i] + u;
    AllSpaceAppend(s[..i], u);
    if r == [] {
      assert u == u[|r|..];
    }
  }

  lemma {:induction false} TrimStartSkipsSpace(a: string, x: string)
    requires AllSpace(a)
    requires x == [] || !IsSpace(x[0])
    ensures TrimStart(a + x) == x
    decreases |a|
  {
    if a != [] {
      assert (a + x)[1..] == a[1..] + x;
      TrimStartSkipsSpace(a[1..], x);
    }
  }

  lemma {:induction false} TrimEndSkipsSpace(x: string, b: string)
    requires AllSpace(b)
    requires x == [] || !IsSpace(x[|x| - 1])
    ensures TrimEnd(x + b) == x
    decreases |b|
  {
    if b != [] {
      assert (x + b)[..|x + b| - 1] == x + b[..|b| - 1];
      TrimEndSkipsSpace(x, b[..|b| - 1]);
    } else {
      assert x + b == x;
    }
  }

  /** Stripping is determined by the non-space core: any whitespace around a
      trimmed string is exactly what `strip()` removes. */
  lemma StripSurrounded(a: string, t: string, b: string)
    requires AllSpace(a) && AllSpace(b) && Trimmed(t)
    ensures Strip(a + t + b) == t
  {
    if t == [] {
      assert a + t + b == a + b;
      AllSpaceAppend(a, b);
    } else {
      assert a + t + b == a + (t + b);
      TrimStartSkipsSpace(a, t + b);
      TrimEndSkipsSpace(t, b);
    }
  }

  /** Stripping twice is stripping once. */
  lemma StripIdempotent(s: string)
    ensures Strip(Strip(s)) == Strip(s)
  {
    var t := Strip(s);
    assert [] + t + [] == t;
    StripSurrounded([], t, []);
  }

  /** Extra whitespace at either end never changes the stripped text; in
      particular the newline a Tk text widget appends to its contents. */
  lemma StripIgnoresOuterSpace(a: string, s: string, b: string)
    requires AllSpace(a) && AllSpace(b)
    ensures Strip(a + s + b) == Strip(s)
  {
    var pre, post := StripSplits(s);
    var t := Strip(s);
    Regroup(a, pre, t, post, b);
    AllSpaceAppend(a, pre);
    AllSpaceAppend(post, b);
    StripSurrounded(a + pre, t, post + b);
  }

  /** Concatenation regrouped outside `StripIgnoresOuterSpace`, whose facts about
      `Strip` make the same step expensive in place. */
  lemma Regroup(a: string, p: string, t: string, q: string, b: string)
    ensures a + (p + t + q) + b == (a + p) + t + (q + b)
  {
    assert a + (p + t + q) + b == a + p + t + q + b;
  }

  lemma StripTrailingNewline(s: string)
    ensures Strip(s + "\n") == Strip(s)
  {
    assert [] + s + "\n" == s + "\n";
    StripIgnoresOuterSpace([], s, "\n");
  }

  /** The concatenation of `parts` in order, as repeated `+=` builds it. */
  function Concat(parts: seq<string>): string {
    if parts == [] then "" else Concat(parts[..|parts| - 1]) + parts[|parts| - 1]
  }

  lemma {:induction false} ConcatAppend(a: seq<string>, b: seq<string>)
    ensures Concat(a + b) == Concat(a) + Concat(b)
    decreases |b|
  {
    if b == [] {
      assert a + b == a;
    } else {
      var init, last := b[..|b| - 1], b[|b| - 1];
      assert (a + b)[..|a + b| - 1] == a + init;
      assert (a + b)[|a + b| - 1] == last;
      ConcatAppend(a, init);
      assert Concat(a + b) == Concat(a) + Concat(init) + last;
      assert Concat(b) == Concat(init) + last;
    }
  }
}

=== FILE: wrappers.dfy ===
/** The Option and Result datatypes used throughout the model. */
module Wrappers {

  /** A value that may be absent, as a missing JSON key or a failed parse. */
  datatype Option<+T> = None | Some(value: T) {

    /** The wrapped value, or `default` when absent (Python's `dict.get(key, default)`). */
    function GetOr(default: T): T {
      match this
      case Some(v) => v
      case None => default
    }
  }

  /** The outcome of a computation that may raise. */
  datatype Result<+R, +E> = Success(value: R) | Failure(error: E)
}
